=== FILE: README.md ===
# Epsilla MCP tool server, modelled in Dafny

The Epsilla MCP server (`src/server.py`) exposes an Epsilla cloud vector
database as tools for the model-context protocol. This model covers its own
logic: the rate-limit window that guards every tool call, the tool
dispatcher that routes a call by name, checks its arguments and wraps every
outcome in exactly one text item, the static tool catalog and the
database-id check.

- `rate_limit.dfy`, module `RateLimit`: the decorator's window as a class
  `RateLimiter` with fields `lastReset` and `callsMade`. `Invoke(now, op)`
  is the decorator's `wrapper`. The pure function `Admit` is its
  specification. `Run` replays a caller that issues calls back to back,
  and the lemmas about it state what the limiter promises over many calls.
  Time is whole ticks on a clock that never runs backwards. The limiter's
  sleep moves the clock on by exactly the time it waits.
- `tools.dfy`, module `Tools`: JSON-shaped values, `validate_db_id`,
  `list_tools` and `call_tool` as pure functions. The remote database
  client is an oracle (`Remote`): what `list_tables()` returns or raises,
  and what `create_table(name=…)` returns or raises for each name. The
  dispatcher also reports the remote calls it made, so the model can state
  that the remote service was never called.
- `server.dfy`, module `Server`: the decorated `call_tool`. The limiter has
  a budget of 10 calls per 1000 ticks (one second in milliseconds), and the
  dispatcher runs behind it.

Besides the expiry reset, which needs strictly more than `period` to have
passed (src/server.py:77-79), the window is reset only inside the
`wait_time > 0` branch (src/server.py:84-87). So when the budget is spent and exactly `period` has
passed, no call is delayed and the counter keeps growing past the budget
(`AtBoundary`, `BoundaryAdmitsEveryCall`).
The catalog's schema declares `name` as a string, but the dispatcher checks
only that the key is present (src/server.py:144), and the model does the
same (`SchemaNotEnforced`).

## Model

| member | source | states |
|---|---|---|
| `RateLimit.Admit` | src/server.py:74-90 | One guarded call. With a positive budget, if more than `period` has passed, the window restarts at `now` and the call goes through at once. Within the window and within budget there is no delay, the window start is unchanged and the counter goes up by one. A spent budget with time left delays the caller until the window ends (0 < delay <= period) and starts a new window then, holding this call. At the exact boundary there is no delay and no reset. With a positive budget, the counter passes the budget exactly in the boundary case. |
| `RateLimit.RateLimiter.constructor` | src/server.py:67-69 | Decorating at tick `created` starts an empty window then. |
| `RateLimit.RateLimiter.Invoke` | src/server.py:72-90 | The imperative wrapper leaves the window and the delay that `Admit` prescribes. It returns, unchanged and failure included, the outcome of the operation started at `now + delay`, the tick the caller is let through, after the call has been counted. |
| `RateLimit.RunTiming` | src/server.py:72-90 | For back-to-back calls, every call is let through no earlier than it arrives and at most `period` later, and the next call arrives no earlier than that. |
| `RateLimit.WithinBudgetNoDelay` | src/server.py:76-89 | While the calls made plus the calls to come fit in the budget, no call is delayed, however the calls are timed. |
| `RateLimit.SpentBudgetWaitsForWindowEnd` | src/server.py:76-89 | Once a window started at `t0` has had its budget spent, no later call starts before `t0 + period`. |
| `RateLimit.FreshLimiterThrottlesBudgetPlusOne` | src/server.py:67-90 | A limiter decorated at `t0` starts the call after its first `calls` calls no earlier than `t0 + period`. |
| `RateLimit.BoundaryAdmitsEveryCall` | src/server.py:77-89 | With the budget spent and exactly `period` elapsed, any number of calls at that instant go through without delay and start at that instant. |
| `RateLimit.ThrottleCountsFromDecorationNotFirstCall` | src/server.py:67-90 | The window runs from the tick of decoration, not from the first call. Decorated at tick 0 with 2 calls per 10 ticks, three calls arriving at tick 9 start at 9, 9 and 10: the third waits one tick, not a full period after the first. |
| `Tools.ValidateDbId` | src/server.py:97-99 | True iff the argument is a non-empty string. |
| `Tools.ListTools` | src/server.py:111-131 | The catalog's tool names are distinct. Every input schema is an object schema whose required parameters are among its declared properties. |
| `Tools.CallTool` | src/server.py:134-171 | Every call yields exactly one text item and makes at most one remote call. Every error text carries the first handler's "Epsilla API error: " prefix, so the second handler is never reached. An unknown name gives "Unknown tool: <name>" with no remote call. `create_table` without a dict or without the key "name" gives the missing-parameter error with no remote call. When the key is present, the remote create call receives its value unchecked. `list_tables` makes one remote call and answers `{"tables": …}` or the remote error text. The answer is a success payload iff the remote call returned a usable value. |
| `Tools.CreateTableReply` | src/server.py:143-147 | `create_table` answers `{"info": <element 1 of the remote response>}`. A remote failure gives its message behind the prefix. A response shorter than two elements gives the index error. |
| `Tools.AdvertisedListDbsIsUnknown` | src/server.py:114-119 | The catalog advertises `list_dbs` but not `list_tables`. The dispatcher answers `list_dbs` with the unknown-tool error and makes no remote call. |
| `Tools.SchemaNotEnforced` | src/server.py:120-146 | The catalog declares `name` as a required string parameter of `create_table`. The dispatcher checks only that the key is present, so a number reaches the remote create call. An empty string reaches it too; the schema's `"type": "string"` accepts it as well. |
| `Server.EpsillaServer.constructor` | src/server.py:134-135 | The decorated `call_tool` owns a fresh limiter with a budget of 10 calls per 1000 ticks and an empty window. |
| `Server.EpsillaServer.CallTool` | src/server.py:134-171 | A tool call first passes the limiter (window and delay as `Admit` prescribes, delay at most one period). Then the dispatcher answers it exactly as it would unguarded, with one text item. |

## Left out

- Configuration loading from the environment (src/server.py:19-38) and client construction (src/server.py:43-50): process-level I/O. The emptiness checks fire only when a variable is set to the empty string, for example `EPSILLA_API_KEY=` in the `.env` file read by `load_dotenv()`.
- `main` and the package entry point in `src/__init__.py`: stdio transport plumbing of the MCP framework.
- `validate_url`: it only wraps `urllib.parse.urlparse`, whose behaviour is not part of this model.
- `asyncio` scheduling and concurrency: the model serves one request at a time. Coroutines can interleave at `await asyncio.sleep` (src/server.py:85) and at `await func` (src/server.py:90). Two calls can then both pass the budget check, both sleep and both reset the window, so the window undercounts. That interleaving is not captured.
- Wall-clock time: `datetime.now()` float seconds become natural-number ticks on a monotone clock. `period` is a whole number of ticks. `datetime.now()` can step backwards, and then `wait_time` exceeds `period` (src/server.py:83); the bound delay <= period (`RunTiming`, `Server.EpsillaServer.CallTool`) holds only on a clock that does not.
- RateLimit.RateLimiter.Invoke: does not model scheduler latency after `asyncio.sleep`. The new window is assumed to start exactly `wait_time` after `now`. The real wake-up can be later, which shifts the new window start by the same amount.
- `json.dumps(indent=2, default=str)` and `logger.error`: a success is an abstract payload map, an error is its message string. The remote returns decoded JSON, so non-string keys and circular references, on which `json.dumps` would still raise, cannot occur.
- Number values are integers only. Python floats in arguments or remote results are not modelled.
- Tools.CallTool: only a tuple-shaped `create_table` response is modelled, as the sequence of its elements, with "tuple index out of range" when it is too short. Other responses index differently: a string gives its second character, a short list raises "list index out of range", a dict or None raises with other messages.
- The pyepsilla client is an oracle returning a value or an exception message. Its own behaviour is outside this model.

=== FILE: rate_limit.dfy ===
/**
 The call-rate guard that src/server.py wraps around every tool call
 (`rate_limit(calls, period)` and its `wrapper`).

 The decorator keeps two closure variables, the start of the current window
 and the number of calls made in it. Time is modelled as whole clock ticks
 on a clock that never runs backwards; the limiter's sleep advances that
 clock by exactly the time it waits.
 */
module RateLimit {

  /** The closure state of one decorated function. */
  datatype Window = Window(lastReset: nat, callsMade: nat)

  /** What one guarded call does: how long it holds the caller back, and the
      window it leaves behind. */
  datatype Admission = Admission(delay: nat, window: Window)

  /** The one case in which neither the expiry test (strictly more than
      `period` elapsed) nor the wait test (a strictly positive wait) fires
      although the budget is spent: exactly `period` has elapsed. */
  predicate AtBoundary(calls: nat, period: nat, w: Window, now: nat)
    requires w.lastReset <= now
  {
    now - w.lastReset == period && w.callsMade >= calls
  }

  /** One guarded call arriving at tick `now`: expire the window, check the
      budget, wait out the rest of the window if it is spent, count the call. */
  function Admit(calls: nat, period: nat, w: Window, now: nat): (r: Admission)
    requires w.lastReset <= now
    // a window older than `period` is discarded before the budget is looked at
    ensures now - w.lastReset > period && calls > 0 ==> r == Admission(0, Window(now, 1))
    // within budget: no delay, same window, one more call
    ensures now - w.lastReset <= period && w.callsMade < calls ==>
              r == Admission(0, Window(w.lastReset, w.callsMade + 1))
    // budget spent early: the caller waits until the window ends, and a new
    // window starting exactly then holds this one call
    ensures now - w.lastReset < period && w.callsMade >= calls ==>
              r == Admission(period - (now - w.lastReset), Window(w.lastReset + period, 1))
    // budget spent and exactly `period` elapsed: no wait and no reset
    ensures AtBoundary(calls, period, w, now) ==>
              r == Admission(0, Window(w.lastReset, w.callsMade + 1))
    ensures r.delay <= period
    ensures r.delay > 0 ==> r.window == Window(now + r.delay, 1)
    ensures w.lastReset <= r.window.lastReset <= now + r.delay
    ensures 1 <= r.window.callsMade
    // the counter passes the budget only in the boundary case
    ensures calls > 0 ==> (r.window.callsMade > calls <==> AtBoundary(calls, period, w, now))
  {
    var current := if now - w.lastReset > period then Window(now, 0) else w;
    var waitTime: int := period - (now - current.lastReset);
    var held := if current.callsMade >= calls && waitTime > 0
                then Admission(waitTime, Window(now + waitTime, 0))
                else Admission(0, current);
    Admission(held.delay, Window(held.window.lastReset, held.window.callsMade + 1))
  }

  /** The limiter as the decorator holds it: the budget is fixed when the
      function is decorated, the window is updated by every call. */
  class RateLimiter {
    const calls: nat
    const period: nat
    var lastReset: nat
    var callsMade: nat

    function State(): (w: Window)
      reads this
    {
      Window(lastReset, callsMade)
    }

    /** Decorating a function at tick `created` starts an empty window then. */
    constructor (calls: nat, period: nat, created: nat)
      ensures this.calls == calls && this.period == period
      ensures State() == Window(created, 0)
    {
      this.calls := calls;
      this.period := period;
      lastReset := created;
      callsMade := 0;
    }

    /** One call of the wrapped operation at tick `now`. The operation is
        given as its outcome at the tick it starts; a failure is part of that
        outcome and is returned unchanged, after the call was counted. */
    method Invoke<T>(now: nat, op: nat -> T) returns (delay: nat, result: T)
      requires lastReset <= now
      modifies this
      ensures Admission(delay, State()) == Admit(calls, period, old(State()), now)
      ensures result == op(now + delay)
    {
      if now - lastReset > period {
        callsMade := 0;
        lastReset := now;
      }
      delay := 0;
      if callsMade >= calls {
        var waitTime: int := period - (now - lastReset);
        if waitTime > 0 {
          delay := waitTime;
          lastReset := now + delay;
          callsMade := 0;
        }
      }
      callsMade := callsMade + 1;
      result := op(now + delay);
    }
  }

  /** When a call reached the limiter and when its wrapped operation started. */
  datatype Slot = Slot(arrival: nat, start: nat)

  /** A caller that issues calls back to back: each call arrives `gaps[i]`
      ticks after the previous one was let through (the first one `gaps[0]`
      ticks after `clock`). */
  function Run(calls: nat, period: nat, w: Window, clock: nat, gaps: seq<nat>): (slots: seq<Slot>)
    requires w.lastReset <= clock
    ensures |slots| == |gaps|
    decreases |gaps|
  {
    if gaps == [] then []
    else
      var now := clock + gaps[0];
      var a := Admit(calls, period, w, now);
      [Slot(now, now + a.delay)] + Run(calls, period, a.window, now + a.delay, gaps[1..])
  }

  /** The first call of a run arrives at `now` and is admitted as `a`; the
      later calls form the run that starts from the window `a` leaves. */
  lemma RunUnfold(calls: nat, period: nat, w: Window, clock: nat, gaps: seq<nat>, now: nat, a: Admission)
    requires w.lastReset <= clock && gaps != []
    requires now == clock + gaps[0] && a == Admit(calls, period, w, now)
    ensures Run(calls, period, w, clock, gaps)
              == [Slot(now, now + a.delay)] + Run(calls, period, a.window, now + a.delay, gaps[1..])
  {
  }

  /** The first call of a run, with what the induction proofs below need to
      know about its admission `a`. Stating it once keeps the definition of
      `Admit` out of those proofs. */
  lemma RunStep(calls: nat, period: nat, w: Window, clock: nat, gaps: seq<nat>) returns (a: Admission)
    requires w.lastReset <= clock && gaps != []
    ensures a.delay <= period && a.window.lastReset <= clock + gaps[0] + a.delay
    ensures Run(calls, period, w, clock, gaps)
              == [Slot(clock + gaps[0], clock + gaps[0] + a.delay)]
                 + Run(calls, period, a.window, clock + gaps[0] + a.delay, gaps[1..])
    ensures w.callsMade < calls ==> a.delay == 0 && a.window.callsMade <= w.callsMade + 1
    ensures clock + gaps[0] == w.lastReset + period && w.callsMade >= calls ==>
              a == Admission(0, Window(w.lastReset, w.callsMade + 1))
  {
    var now := clock + gaps[0];
    a := Admit(calls, period, w, now);
    RunUnfold(calls, period, w, clock, gaps, now, a);
  }

  /** In a run every call is let through no earlier than it arrives and no
      more than `period` later, and the next call arrives no earlier than
      that. */
  lemma {:induction false} RunTiming(calls: nat, period: nat, w: Window, clock: nat, gaps: seq<nat>)
    requires w.lastReset <= clock
    ensures var slots := Run(calls, period, w, clock, gaps);
            && (forall i :: 0 <= i < |slots| ==>
                  clock <= slots[i].arrival <= slots[i].start <= slots[i].arrival + period)
            && (forall i :: 0 <= i < |slots| - 1 ==> slots[i].start <= slots[i + 1].arrival)
    decreases |gaps|
  {
    if gaps != [] {
      var a := RunStep(calls, period, w, clock, gaps);
      RunTiming(calls, period, a.window, clock + gaps[0] + a.delay, gaps[1..]);
    }
  }

  /** As long as the calls made so far plus those still to come fit in the
      budget, no call is delayed, whatever its timing. */
  lemma {:induction false} WithinBudgetNoDelay(calls: nat, period: nat, w: Window, clock: nat, gaps: seq<nat>)
    requires w.lastReset <= clock
    requires w.callsMade + |gaps| <= calls
    ensures forall i :: 0 <= i < |gaps| ==>
              Run(calls, period, w, clock, gaps)[i].start == Run(calls, period, w, clock, gaps)[i].arrival
    decreases |gaps|
  {
    if gaps != [] {
      var a := RunStep(calls, period, w, clock, gaps);
      WithinBudgetNoDelay(calls, period, a.window, clock + gaps[0], gaps[1..]);
    }
  }

  /** The induction hypothesis of `SpentBudgetWaitsForWindowEnd`, carried
      across one call: while `j` more calls are to come before the one of
      interest, either the window has moved to `t0 + period` or later, or it
      still starts at `t0` and those calls spend its budget. */
  predicate WindowEndPending(calls: nat, period: nat, t0: nat, w: Window, j: nat)
  {
    w.lastReset >= t0 + period || (w.lastReset == t0 && w.callsMade + j >= calls)
  }

  lemma AdmitKeepsWindowEndPending(calls: nat, period: nat, t0: nat, w: Window, now: nat, j: nat)
    requires w.lastReset <= now
    requires WindowEndPending(calls, period, t0, w, j)
    ensures j == 0 ==> now + Admit(calls, period, w, now).delay >= t0 + period
    ensures j > 0 ==> WindowEndPending(calls, period, t0, Admit(calls, period, w, now).window, j - 1)
  {
    var a := Admit(calls, period, w, now);
    if w.lastReset >= t0 + period {
      // the window never moves back
    } else if now - t0 > period {
      // the window expires: it restarts after t0 + period
    } else if now - t0 < period {
      // within the window started at t0
      if w.callsMade < calls {
        assert a == Admission(0, Window(t0, w.callsMade + 1));
      } else {
        assert a == Admission(period - (now - t0), Window(t0 + period, 1));
      }
    } else {
      // exactly at the end of the window started at t0: no wait, no reset,
      // whether or not the budget is spent
      assert a == Admission(0, Window(t0, w.callsMade + 1));
    }
  }

  /** One call of a run, seen from the pending-window-end invariant. */
  lemma PendingStep(calls: nat, period: nat, t0: nat, w: Window, clock: nat, gaps: seq<nat>, j: nat)
    returns (next: Window, nextClock: nat)
    requires w.lastReset <= clock && gaps != []
    requires WindowEndPending(calls, period, t0, w, j)
    ensures next.lastReset <= nextClock
    ensures Run(calls, period, w, clock, gaps)
              == [Slot(clock + gaps[0], nextClock)] + Run(calls, period, next, nextClock, gaps[1..])
    ensures j == 0 ==> nextClock >= t0 + period
    ensures j > 0 ==> WindowEndPending(calls, period, t0, next, j - 1)
  {
    var now := clock + gaps[0];
    var a := Admit(calls, period, w, now);
    RunUnfold(calls, period, w, clock, gaps, now, a);
    AdmitKeepsWindowEndPending(calls, period, t0, w, now, j);
    next, nextClock := a.window, now + a.delay;
  }

  /** The call numbered `j` (from 0) starts no earlier than `t0 + period`
      when either the window already started at or after `t0 + period`, or
      it started at `t0` and `j` more calls spend its budget. */
  lemma {:induction false} SpentBudgetWaitsForWindowEnd(
    calls: nat, period: nat, t0: nat, w: Window, clock: nat, gaps: seq<nat>, j: nat)
    requires w.lastReset <= clock
    requires j < |gaps|
    requires WindowEndPending(calls, period, t0, w, j)
    ensures Run(calls, period, w, clock, gaps)[j].start >= t0 + period
    decreases |gaps|
  {
    var next, nextClock := PendingStep(calls, period, t0, w, clock, gaps, j);
    if j > 0 {
      SpentBudgetWaitsForWindowEnd(calls, period, t0, next, nextClock, gaps[1..], j - 1);
    }
  }

  /** A limiter decorated at tick `t0` lets the call after its first `calls`
      calls start no earlier than `t0 + period`, however the calls are timed. */
  lemma FreshLimiterThrottlesBudgetPlusOne(calls: nat, period: nat, t0: nat, clock: nat, gaps: seq<nat>)
    requires t0 <= clock
    requires calls < |gaps|
    ensures Run(calls, period, Window(t0, 0), clock, gaps)[calls].start >= t0 + period
  {
    SpentBudgetWaitsForWindowEnd(calls, period, t0, Window(t0, 0), clock, gaps, calls);
  }

  /** At the boundary instant the limiter lets any number of calls through
      without delay: the counter grows past the budget and nothing resets it
      until the clock moves on. */
  lemma {:induction false} BoundaryAdmitsEveryCall(calls: nat, period: nat, w: Window, now: nat, gaps: seq<nat>)
    requires now == w.lastReset + period
    requires w.callsMade >= calls
    requires forall i :: 0 <= i < |gaps| ==> gaps[i] == 0
    ensures forall i :: 0 <= i < |gaps| ==> Run(calls, period, w, now, gaps)[i] == Slot(now, now)
    decreases |gaps|
  {
    if gaps != [] {
      var a := RunStep(calls, period, w, now, gaps);
      BoundaryAdmitsEveryCall(calls, period, a.window, now, gaps[1..]);
    }
  }

  /** The guarantee above is measured from the tick the limiter was
      decorated, not from the first call: decorated at 0 with a budget of 2
      per 10 ticks, three calls all arriving at 9 find the first window still
      open, so the third one waits only until 10, one tick after the first
      call started. */
  lemma ThrottleCountsFromDecorationNotFirstCall()
    ensures Run(2, 10, Window(0, 0), 0, [9, 0, 0]) == [Slot(9, 9), Slot(9, 9), Slot(9, 10)]
  {
    var a := Admit(2, 10, Window(0, 0), 9);
    assert a == Admission(0, Window(0, 1));
    RunUnfold(2, 10, Window(0, 0), 0, [9, 0, 0], 9, a);
    assert [9, 0, 0][1..] == [0, 0];
    LastTwoAtNine();
  }

  lemma LastTwoAtNine()
    ensures Run(2, 10, Window(0, 1), 9, [0, 0]) == [Slot(9, 9), Slot(9, 10)]
  {
    var a := Admit(2, 10, Window(0, 1), 9);
    assert a == Admission(0, Window(0, 2));
    RunUnfold(2, 10, Window(0, 1), 9, [0, 0], 9, a);
    assert [0, 0][1..] == [0];
    LastAtNine();
  }

  lemma LastAtNine()
    ensures Run(2, 10, Window(0, 2), 9, [0]) == [Slot(9, 10)]
  {
    var a := Admit(2, 10, Window(0, 2), 9);
    assert a == Admission(1, Window(10, 1));
    RunUnfold(2, 10, Window(0, 2), 9, [0], 9, a);
    assert [0][1..] == [];
  }
}

=== FILE: server.dfy ===
/**
 The server-level wiring in src/server.py: `call_tool` is decorated with
 `rate_limit(calls=10, period=1.0)`, so every tool call first passes the
 limiter and then runs the dispatcher. Ticks are milliseconds, so the
 one-second period is 1000 ticks. Tool discovery (`list_tools`) is not
 rate limited and needs no state; it is `Tools.ListTools`.
 */
module Server {
  import opened RateLimit
  import opened Tools

  const CallBudget: nat := 10
  const PeriodTicks: nat := 1000

  class EpsillaServer {
    /** The window the `rate_limit` decorator closes over. */
    const limiter: RateLimiter

    /** The limiter carries the budget the decorator was given. */
    predicate Valid()
    {
      limiter.calls == CallBudget && limiter.period == PeriodTicks
    }

    /** The decorator runs when the module is loaded, at tick `loaded`. */
    constructor (loaded: nat)
      ensures fresh(limiter) && Valid()
      ensures limiter.State() == Window(loaded, 0)
    {
      limiter := new RateLimiter(CallBudget, PeriodTicks, loaded);
    }

    /** A tool call arriving at tick `now`: the limiter may hold it back,
        then the dispatcher answers it exactly as it would unguarded. */
    method CallTool(now: nat, name: string, arguments: Json, remote: Remote) returns (delay: nat, reply: Reply)
      requires Valid()
      requires limiter.lastReset <= now
      modifies limiter
      ensures Admission(delay, limiter.State()) == Admit(CallBudget, PeriodTicks, old(limiter.State()), now)
      ensures delay <= PeriodTicks
      ensures reply == Tools.CallTool(name, arguments, remote)
      ensures |reply.content| == 1
    {
      delay, reply := limiter.Invoke(now, (start: nat) => Tools.CallTool(name, arguments, remote));
    }
  }
}

=== FILE: tools.dfy ===
/**
 The tool surface of the Epsilla server in src/server.py: the static tool
 catalog (`list_tools`), the database-id check (`validate_db_id`) and the
 tool dispatcher (`call_tool`) without its rate limiter.

 The remote vector-database client is an oracle: what `list_tables()`
 returns or raises, and what `create_table(name=...)` returns or raises for
 each name. The dispatcher reports, next to its reply, the remote calls it
 made, so that "the remote service was never called" can be stated.
 */
module Tools {

  /** The JSON-shaped values that arrive as tool arguments and that the
      remote service returns. */
  datatype Json =
    | JNull
    | JBool(b: bool)
    | JNum(n: int)
    | JStr(str: string)
    | JArr(items: seq<Json>)
    | JObj(fields: map<string, Json>)

  /** Python truthiness of a value. */
  predicate Truthy(v: Json)
  {
    match v
    case JNull => false
    case JBool(b) => b
    case JNum(n) => n != 0
    case JStr(s) => s != []
    case JArr(items) => items != []
    case JObj(fields) => fields != map[]
  }

  /** `validate_db_id`: the value is truthy and it is a string. */
  function ValidateDbId(dbId: Json): (ok: bool)
    ensures ok <==> dbId.JStr? && |dbId.str| > 0
  {
    Truthy(dbId) && dbId.JStr?
  }

  // ---------------------------------------------------------------------
  // The tool catalog

  datatype Tool = Tool(name: string, description: string, inputSchema: Json)

  /** An input schema of the shape the catalog uses: an object schema whose
      required parameters are all among its declared properties. */
  predicate ObjectSchema(schema: Json)
  {
    && schema.JObj?
    && "type" in schema.fields && schema.fields["type"] == JStr("object")
    && "properties" in schema.fields && schema.fields["properties"].JObj?
    && "required" in schema.fields && schema.fields["required"].JArr?
    && forall p :: p in schema.fields["required"].items ==>
         p.JStr? && p.str in schema.fields["properties"].fields
  }

  /** `list_tools`: the catalog the server advertises. */
  function ListTools(): (tools: seq<Tool>)
    ensures forall i :: 0 <= i < |tools| ==> ObjectSchema(tools[i].inputSchema)
    ensures forall i, j :: 0 <= i < j < |tools| ==> tools[i].name != tools[j].name
  {
    [ Tool("list_dbs", "List all dbs you have access to",
           JObj(map["type" := JStr("object"), "properties" := JObj(map[]), "required" := JArr([])])),
      Tool("create_table", "Create a new table in Epsilla for storing documents",
           JObj(map["type" := JStr("object"),
                    "properties" := JObj(map["name" := JObj(map["type" := JStr("string"),
                                                                "description" := JStr("Name of the table")])]),
                    "required" := JArr([JStr("name")])]))
    ]
  }

  // ---------------------------------------------------------------------
  // The dispatcher

  /** What a remote call did: returned a value, or raised an exception whose
      text is `message`. */
  datatype Outcome<T> = Returned(value: T) | Raised(message: string)

  /** The remote database client. `create_table` answers with a tuple
      (status, info), modelled as the sequence of its elements. */
  datatype Remote = Remote(listTables: Outcome<Json>, createTable: Json -> Outcome<seq<Json>>)

  datatype RemoteCall = ListTablesCall | CreateTableCall(name: Json)

  /** The text of a content item: the JSON-encoded success object, or the
      plain error message. */
  datatype Text = Payload(result: map<string, Json>) | Message(message: string)

  datatype TextContent = TextContent(kind: string, text: Text)

  /** The dispatcher's answer, with the remote calls it made on the way. */
  datatype Reply = Reply(content: seq<TextContent>, remoteCalls: seq<RemoteCall>)

  const ApiErrorPrefix := "Epsilla API error: "
  const MissingName := "Missing required parameter: 'name'"
  const TupleIndexError := "tuple index out of range"

  function UnknownTool(name: string): (message: string)
  {
    "Unknown tool: " + name
  }

  /** The body of the `try` block: its result or the exception it raises,
      and the remote calls made before it finished. */
  function TryBody(name: string, arguments: Json, remote: Remote): (r: (Outcome<map<string, Json>>, seq<RemoteCall>))
  {
    if name == "list_tables" then
      match remote.listTables
      case Returned(tables) => (Returned(map["tables" := tables]), [ListTablesCall])
      case Raised(e) => (Raised(e), [ListTablesCall])
    else if name == "create_table" then
      if !arguments.JObj? || "name" !in arguments.fields then
        (Raised(MissingName), [])
      else
        var tableName := arguments.fields["name"];
        match remote.createTable(tableName)
        case Raised(e) => (Raised(e), [CreateTableCall(tableName)])
        case Returned(resp) =>
          if |resp| > 1 then (Returned(map["info" := resp[1]]), [CreateTableCall(tableName)])
          else (Raised(TupleIndexError), [CreateTableCall(tableName)])
    else
      (Raised(UnknownTool(name)), [])
  }

  /** `call_tool` without its rate limiter: every outcome, success or
      exception, becomes exactly one text item. */
  function CallTool(name: string, arguments: Json, remote: Remote): (r: Reply)
    // containment: one text item, whatever happens
    ensures |r.content| == 1 && r.content[0].kind == "text"
    ensures |r.remoteCalls| <= 1
    // every error passes through the first handler
    ensures r.content[0].text.Message? ==>
              ApiErrorPrefix <= r.content[0].text.message
    // unknown names are refused before the remote service is touched
    ensures name != "list_tables" && name != "create_table" ==>
              r.content[0].text == Message(ApiErrorPrefix + "Unknown tool: " + name) && r.remoteCalls == []
    // list_tables: one remote call, its value under "tables" or its error text
    ensures name == "list_tables" ==> r.remoteCalls == [ListTablesCall]
    ensures name == "list_tables" && remote.listTables.Returned? ==>
              r.content[0].text == Payload(map["tables" := remote.listTables.value])
    ensures name == "list_tables" && remote.listTables.Raised? ==>
              r.content[0].text == Message(ApiErrorPrefix + remote.listTables.message)
    // create_table: the key "name" must be present, its value is not checked
    ensures name == "create_table" && (!arguments.JObj? || "name" !in arguments.fields) ==>
              r.content[0].text == Message(ApiErrorPrefix + "Missing required parameter: 'name'")
              && r.remoteCalls == []
    ensures name == "create_table" && arguments.JObj? && "name" in arguments.fields ==>
              r.remoteCalls == [CreateTableCall(arguments.fields["name"])]
    // the content is a success payload exactly when the remote call
    // returned something of the expected shape
    ensures r.content[0].text.Payload? <==>
              || (name == "list_tables" && remote.listTables.Returned?)
              || (name == "create_table" && arguments.JObj? && "name" in arguments.fields
                  && remote.createTable(arguments.fields["name"]).Returned?
                  && |remote.createTable(arguments.fields["name"]).value| > 1)
  {
    assert ApiErrorPrefix + UnknownTool(name) == ApiErrorPrefix + "Unknown tool: " + name;
    var (outcome, calls) := TryBody(name, arguments, remote);
    match outcome
    case Returned(result) => Reply([TextContent("text", Payload(result))], calls)
    case Raised(e) => Reply([TextContent("text", Message(ApiErrorPrefix + e))], calls)
  }

  /** A successful `create_table` reports the second element of the remote
      response under "info"; a failed or too short response becomes an
      error text carrying the exception's message. */
  lemma CreateTableReply(arguments: Json, remote: Remote, tableName: Json)
    requires arguments.JObj? && "name" in arguments.fields && arguments.fields["name"] == tableName
    ensures var r := CallTool("create_table", arguments, remote);
            match remote.createTable(tableName)
            case Raised(e) => r.content[0].text == Message(ApiErrorPrefix + e)
            case Returned(resp) =>
              if |resp| > 1 then r.content[0].text == Payload(map["info" := resp[1]])
              else r.content[0].text == Message(ApiErrorPrefix + "tuple index out of range")
  {
  }

  /** The catalog and the dispatcher disagree: `list_dbs` is advertised but
      the dispatcher answers it with an unknown-tool error and no remote call,
      while `list_tables`, which the dispatcher serves, is not advertised. */
  lemma AdvertisedListDbsIsUnknown(arguments: Json, remote: Remote)
    ensures exists i :: 0 <= i < |ListTools()| && ListTools()[i].name == "list_dbs"
    ensures forall i :: 0 <= i < |ListTools()| ==> ListTools()[i].name != "list_tables"
    ensures CallTool("list_dbs", arguments, remote)
              == Reply([TextContent("text", Message("Epsilla API error: Unknown tool: list_dbs"))], [])
  {
    var tools := ListTools();
    assert tools[0].name == "list_dbs" && tools[1].name == "create_table";
    UnknownListDbsText();
  }

  lemma UnknownListDbsText()
    ensures ApiErrorPrefix + "Unknown tool: " + "list_dbs" == "Epsilla API error: Unknown tool: list_dbs"
  {
  }

  /** The catalog declares `name` as a required string, but the dispatcher
      checks only that the key is present: a number still reaches the remote
      create call, and so does an empty string, which the schema's
      `"type": "string"` accepts as well. */
  lemma SchemaNotEnforced(remote: Remote)
    ensures ListTools()[1].name == "create_table"
    ensures ListTools()[1].inputSchema.fields["properties"].fields["name"].fields["type"] == JStr("string")
    ensures JStr("name") in ListTools()[1].inputSchema.fields["required"].items
    ensures CallTool("create_table", JObj(map["name" := JNum(7)]), remote).remoteCalls == [CreateTableCall(JNum(7))]
    ensures CallTool("create_table", JObj(map["name" := JStr("")]), remote).remoteCalls == [CreateTableCall(JStr(""))]
  {
  }
}
